=== FILE: README.md ===
# Phone verification flow, modelled in Dafny

This project models the web side of the app's sign-in hand-off. A user
receives a six-digit SMS code and types or pastes it into six cells. The
page redeems the code with the identity provider and exchanges the user id
with the app's backend. It then offers a deep link that carries the user id
and the backend token into the mobile app. A separate landing page forwards
an authorization `code` parameter into a fixed onboarding link.

The page is a record of state (`VerifyPage.PageState`). Each event handler
is a pure function on it. Everything outside the page becomes a parameter:
the provider's answer, the backend's HTTP answer, the SMS dispatcher's
answer and whether sign-out failed. Each handler also returns the list of
external calls it makes, so "no call is made" can be stated. Asynchronous
handlers are split at the points where React state can be observed: a
synchronous start (`BeginVerify`, `StartResend`) and a settlement
(`FinishVerify`, `FinishResend`). `VerifyPage.Next` puts all handlers
together as one event system with the gating that the markup applies, and
`VerifyPage.Inv` is the invariant every reachable state keeps.

`encodeURIComponent` is modelled in full. It encodes each character as
UTF-8 (RFC 3629, section 3) and writes every byte of a character outside
encodeURIComponent's unescaped set (ASCII letters, digits and
`-_.!~*'()`) as `%XX` with upper-case hex digits, the percent-encoding of
RFC 3986, section 2.1. A decoder is given, and the round
trip is proved. With it, the deep link can be parsed back into exactly the
user id and token that built it.

Modules:

- `Wrappers`: `Option` and `Result`.
- `Text`: the digit filter `replace(/\D/g, "")`, prefixes and character search.
- `Otp`: the six-cell code buffer.
- `UriComponent`: `encodeURIComponent` and its inverse.
- `Links`: the verification deep link, its parser, the landing page's onboarding link and the button that shows a link.
- `AuthApi`: the backend sign-in request body, the response envelope check, logout and account deletion.
- `VerifyPage`: the verification page itself.
- `VerifyScenarios`: complete visits with concrete values.

## Model

| member | source | states |
|---|---|---|
| Text.StripNonDigits | app/verify/page.tsx:84 | the result holds only ASCII digits and is no longer than the input |
| Text.StripKeepsDigits | app/verify/page.tsx:148 | a string made only of digits passes through the filter unchanged |
| Text.StripDistributes | app/verify/page.tsx:148 | filtering a concatenation is the same as concatenating the filtered parts |
| Text.StripChar | app/verify/page.tsx:84 | on one character the filter keeps a digit and drops anything else; with `StripDistributes` this determines the filter on every string |
| Text.StripDropsNonDigit | app/verify/page.tsx:84 | a non-digit anywhere in the input contributes nothing to the result |
| Text.StripKeepsDigit | app/verify/page.tsx:84 | a digit anywhere in the input is kept, after the digits before it and before the digits after it |
| Text.StripIdempotent | app/verify/page.tsx:84 | filtering twice gives the same result as filtering once |
| Text.Prefix | app/verify/page.tsx:84 | `.slice(0, 6)`: the result is a prefix of the input, of the input's length when that is at most the bound and of the bound's length otherwise |
| Otp.EmptyCodeIsBlank | app/verify/page.tsx:23 | the cleared buffer has six well-formed cells and is not complete |
| Otp.LastChar | app/verify/page.tsx:65 | `value.slice(-1)` is empty for an empty value and otherwise the value's final character |
| Otp.SetCell | app/verify/page.tsx:62-65 | a value with any non-digit is rejected; otherwise only cell `index` changes, to the value's last character, and the cells stay well formed |
| Otp.FocusAfterInput | app/verify/page.tsx:69 | focus moves, to `index + 1`, exactly when the value is non-empty and `index < 5` |
| Otp.FocusAfterKey | app/verify/page.tsx:76-80 | focus moves, to `index - 1`, exactly when the key is Backspace, the cell is empty and `index > 0` |
| Otp.PastedDigits | app/verify/page.tsx:84 | a paste contributes only digits, at most six; an all-digit paste contributes its first six characters |
| Otp.PasteIgnoresNonDigit | app/verify/page.tsx:84 | a non-digit anywhere in the pasted text makes no difference to what is pasted |
| Otp.Overlay | app/verify/page.tsx:85-86 | cells `0..n-1` receive the pasted digits and cells `n..5` are untouched |
| Otp.Paste | app/verify/page.tsx:84-87 | pasting keeps the cells well formed and completes the buffer whenever the text holds six or more digits |
| Otp.TypeInOrderCells | app/verify/page.tsx:62-65 | typing digits into cells `from, from+1, ...` sets exactly those cells, one digit each |
| Otp.PasteIsTypingInOrder | app/verify/page.tsx:84-86 | a paste equals typing its digits into cells 0, 1, ... one after another |
| Otp.Join | app/verify/page.tsx:99 | when every cell holds one character, the joined code has one character per cell, in order |
| Otp.JoinComplete | app/verify/page.tsx:71 | a complete buffer joins to a six-digit code whose i-th digit is cell i |
| Otp.PasteExample | app/verify/page.tsx:84-87 | pasting "12ab3456" yields the cells "1" to "6" |
| UriComponent.HexDigit | app/verify/page.tsx:121-123 | hex digits written by an escape are themselves in the unescaped set |
| UriComponent.Escape | app/verify/page.tsx:121-123 | every escaped byte is three characters and starts with `%` |
| UriComponent.Utf8 | app/verify/page.tsx:121-123 | a character encodes to one to four UTF-8 bytes |
| UriComponent.EncodeEmittable | app/verify/page.tsx:121-123 | an encoded value consists only of characters in the unescaped set (letters, digits and `-_.!~*'()`) and `%`, so it never contains `&` |
| UriComponent.EncodeUnescaped | app/verify/page.tsx:121-123 | a value made only of characters in the unescaped set is left as it is |
| UriComponent.DecodeEncode | app/verify/page.tsx:121-123 | decoding an encoded value gives back the original value |
| UriComponent.EncodeInjective | app/verify/page.tsx:121-123 | different values never encode to the same text |
| Links.VerifyLink | app/verify/page.tsx:121-123 | the link starts with the fixed `...pucreauth?uid=` head |
| Links.UidEndsAtFirstAmpersand | app/verify/page.tsx:121-123 | after the head, the encoded user id runs exactly up to the first `&`, so it cannot spill into the token field |
| Links.ParseVerifyLinkInverts | app/verify/page.tsx:121-123 | the deep link parses back to exactly the user id and token that built it |
| Links.VerifyLinkInjective | app/verify/page.tsx:121-123 | two deep links are equal only when their user ids and tokens are equal |
| Links.OnboardingLink | app/page.tsx:11-20 | a link exists exactly when the `code` parameter is present and non-empty; it is the fixed prefix followed by the code, unencoded |
| Links.OnboardingLinkInjective | app/page.tsx:17 | stripping the fixed prefix recovers the code, so different codes give different links |
| Links.ButtonFor | app/page.tsx:43-59 | the open-app link is shown exactly when the redirect is present and non-empty, with that redirect as its target; otherwise the disabled loading button |
| Links.LandingShowsLinkIffCode | app/page.tsx:11-59 | the landing page shows the open-app link exactly when `code` is present and non-empty, pointing to the prefix followed by the code |
| AuthApi.SignInBody | lib/api/authApi.ts:46-50 | the body has three fields and none is called `screenName` |
| AuthApi.Field | lib/api/authApi.ts:46-50 | the reader used to check the posted body: a body lacks a key exactly when no entry carries that key |
| AuthApi.SignInBodyRoundTrip | lib/api/authApi.ts:46-50 | the posted body keeps `uid` and `email` and renames `screenName` to `screen_name`: reading the three fields back gives the original parameters, and no `screenName` key is sent |
| AuthApi.SignIn | lib/api/authApi.ts:46-58 | the result is a success exactly when the HTTP status and the payload status are both 200; a success returns the payload's `data` unchanged; a transport failure becomes an error |
| AuthApi.PhoneNumberSignIn | lib/api/authApi.ts:36-60 | the phone sign-in posts to `/phone_number_signin` |
| AuthApi.AppleSignIn | lib/api/authApi.ts:10-34 | the Apple sign-in posts to `/apple_signin` |
| AuthApi.AppleSignInMatchesPhone | lib/api/authApi.ts:10-60 | the two sign-ins send the same body and accept the same responses; only the path differs |
| AuthApi.SignInRejections | lib/api/authApi.ts:52-58 | a payload status other than 200 is rejected even over HTTP 200, and an HTTP status other than 200 is rejected whatever the payload says |
| AuthApi.EndSession | lib/api/authApi.ts:62-78 | ending a session posts an empty body and leaves local storage empty |
| AuthApi.Logout | lib/api/authApi.ts:62-69 | logout posts to `/logout` |
| AuthApi.Delete | lib/api/authApi.ts:71-78 | delete posts to `/me/delete` |
| AuthApi.SessionEndIgnoresOutcome | lib/api/authApi.ts:62-78 | logout and delete clear local storage whether or not the request failed, and their effect does not depend on the response |
| VerifyPage.Initial | app/verify/page.tsx:21-29 | the page starts with an empty buffer, nothing in flight, no cooldown, and satisfies the invariant |
| VerifyPage.InputChange | app/verify/page.tsx:62-74 | non-digit input changes nothing; otherwise only cell `index`, the error (cleared), focus and completeness change; verification is scheduled exactly when the new buffer is complete, with that buffer |
| VerifyPage.KeyDown | app/verify/page.tsx:76-80 | a key press changes only focus, and never the code |
| VerifyPage.Paste | app/verify/page.tsx:82-91 | a paste changes only the buffer and completeness, not the error or focus; verification is scheduled exactly when the pasted buffer is complete |
| VerifyPage.PasteSchedulesDigits | app/verify/page.tsx:84-90 | a paste containing six or more digits schedules verification of its first six digits |
| VerifyPage.CompleteBufferSchedulesAgain | app/verify/page.tsx:71-73 | retyping a cell of a complete buffer schedules another verification, because nothing guards against a second one |
| VerifyPage.LookupHandle | app/verify/page.tsx:100-103 | a non-empty stored handle wins; otherwise a non-empty in-memory copy is used; an empty string counts as missing |
| VerifyPage.TokenText | app/verify/page.tsx:123 | a present token goes into the link as it is; a missing one becomes the text "undefined", as `encodeURIComponent(undefined)` gives |
| VerifyPage.Attempt | app/verify/page.tsx:98-127 | a missing handle fails before any call; a failed redemption stops after that call and keeps its error code; a failed token refresh stops after the redemption and the refresh and keeps its code; otherwise the calls are the redemption, the forced token refresh and the backend sign-in with the user id and empty email and screen name; the attempt succeeds exactly when the redemption succeeds and the backend accepts with data, and then carries that user id and token |
| VerifyPage.ErrorMessage | app/verify/page.tsx:130-136 | the invalid-code message appears exactly for `auth/invalid-verification-code`, the expired message exactly for `auth/code-expired`, and the generic message for everything else |
| VerifyPage.BeginVerify | app/verify/page.tsx:95-96 | starting a verification turns the spinner on and clears the error, and nothing else |
| VerifyPage.FinishVerify | app/verify/page.tsx:125-141 | success stores the deep link and marks the page verified; failure shows the mapped message and leaves six empty cells, an incomplete buffer and focus on the first cell; both end the spinner |
| VerifyPage.Verify | app/verify/page.tsx:94-142 | with no handle nothing is called and the generic message shows; otherwise the first call redeems the joined code with the handle; the page ends verified exactly when it was already verified or the attempt succeeds; the spinner is off at the end |
| VerifyPage.VerifiedRedirectNamesUser | app/verify/page.tsx:115-126 | after a successful verification the link parses back to the signed-in user and the backend token, and the backend body carries that user id |
| VerifyPage.FailedVerifyResetsEntry | app/verify/page.tsx:128-141 | a failed verification makes no sign-out call, sets no link and resets the buffer with the mapped message |
| VerifyPage.VerifyEventsMatchVerify | app/verify/page.tsx:94-142 | the due event followed by the settlement event reaches the same state as the whole verification |
| VerifyPage.MissingHandleFailsAtOnce | app/verify/page.tsx:100-103 | without a handle the due event alone fails the attempt, as the whole verification does, with no call made |
| VerifyPage.DialledNumber | app/verify/page.tsx:148-149 | the dialled number is `+81` followed only by digits, and an all-digit phone is dialled as written, leading zero included |
| VerifyPage.DialSkipsSeparator | app/verify/page.tsx:148 | a separator anywhere in the phone parameter is not dialled |
| VerifyPage.StartResend | app/verify/page.tsx:145-162 | a resend sets the cooldown to 60 and clears the error before its single SMS request, and makes sure the widget exists |
| VerifyPage.FinishResend | app/verify/page.tsx:164-175 | a delivered handle goes to both local storage and memory; a failure shows the resend message, resets the cooldown to 0 and discards the widget |
| VerifyPage.ResendReplacesHandle | app/verify/page.tsx:164-166 | after a delivered handle the next verification looks up exactly that handle |
| VerifyPage.Tick | app/verify/page.tsx:36-41 | a tick lowers a positive cooldown by one, leaves zero at zero, and changes nothing else |
| VerifyPage.TicksCountDown | app/verify/page.tsx:36-41 | after n ticks the cooldown is its old value minus n, never below zero |
| VerifyPage.ResendArea | app/verify/page.tsx:280-292 | an enabled resend button shows exactly when the page is not verified, the cooldown is zero and no verification is in flight; the countdown shows exactly while the cooldown is positive and the page is not verified |
| VerifyPage.PressResend | app/verify/page.tsx:280-292 | a press during the cooldown, during a verification or on the verified screen changes nothing and makes no call; on an enabled button it starts a resend |
| VerifyPage.ResendReopensAfterCooldown | app/verify/page.tsx:280-292 | after a resend the countdown shows for 59 ticks and the enabled button is back after the 60th |
| VerifyPage.VerifiedView | app/verify/page.tsx:179-214 | the verified screen shows exactly when the page is verified |
| VerifyPage.Complete | app/verify/page.tsx:50-60 | completion always signs out, then follows a present, non-empty redirect whether or not sign-out failed |
| VerifyPage.VerifyThenComplete | app/verify/page.tsx:50-60 | after a successful verification, completion opens the deep link even when sign-out fails |
| VerifyPage.Next | app/verify/page.tsx:36-292 | input, key and paste events do nothing while a verification is in flight or on the verified screen, and cell events outside the six cells do nothing; a due verification without a handle fails at once with the generic message and an empty buffer, and with one it starts the spinner; a resend press on anything but an enabled button does nothing; a tick counts the cooldown down, never below zero |
| VerifyPage.NextPreservesInv | app/verify/page.tsx:62-176 | every event keeps six well-formed cells, completeness equal to all cells filled, focus on a cell, cooldown within 0..60, and a parsable link exactly when verified |
| VerifyPage.RunPreservesInv | app/verify/page.tsx:62-176 | every state reached by a sequence of events keeps the invariant |
| VerifyPage.VerifiedScreenShowsLink | app/verify/page.tsx:198-209 | a reachable verified screen always shows the open-app link, never the loading button |
| VerifyScenarios.JoinTyped | app/verify/page.tsx:99 | the cells "1" to "6" join to "123456" |
| VerifyScenarios.PasteMakesReady | app/verify/page.tsx:82-90 | pasting "12ab3456" schedules the cells "1" to "6" |
| VerifyScenarios.Ready | app/verify/page.tsx:145-166 | opening the page, resending and pasting reaches a page ready to verify "123456" with handle "H1" |
| VerifyScenarios.ResendDialsDigits | app/verify/page.tsx:148-149 | the phone "09012345678" is dialled as "+8109012345678" |
| VerifyScenarios.PlainLink | app/verify/page.tsx:121-123 | user "U1" and token "abc" give the link `...pucreauth?uid=U1&token=abc` |
| VerifyScenarios.SuccessfulVisit | app/verify/page.tsx:94-127 | an accepted visit makes exactly the redemption, the forced token refresh and the backend call, sets that link and follows it even when sign-out fails |
| VerifyScenarios.BackendRejectionVisit | app/verify/page.tsx:115-141 | payload status 500 after a successful redemption gives the generic message and an empty buffer, without signing out |
| VerifyScenarios.WrongCodeVisit | app/verify/page.tsx:128-131 | a wrong code stops after the redemption and shows the invalid-code message |

## Behaviour of the code worth knowing

- A backend rejection after a successful redemption does not sign the user out (`VerifyPage.FailedVerifyResetsEntry`, `VerifyScenarios.BackendRejectionVisit`).
- Nothing prevents a second verification while one is pending (`VerifyPage.CompleteBufferSchedulesAgain`). The inputs are disabled only once a verification has started, not during the 300 ms delay before it starts.
- The resend dials `+81` followed by every digit of the phone parameter, so a leading zero is kept.
- The token field of the backend response is not checked. A missing token becomes the text `undefined` in the link (`VerifyPage.TokenText`).
- The onboarding code is inserted into its link without encoding.

## Left out

- React rendering, CSS and DOM focus: the screens are the values of `VerifiedView`, `ResendArea` and `ButtonFor`. The field `focus` is the index targeted by the page's own `focus()` calls, not where the browser's focus is: a user tapping a cell is not an event, so `Next(Initial(..), CellChanged(3, ""))` leaves `focus` at 0.
- Timers: the 300 ms delay before verification and the one-second cooldown tick are the events `VerifyDue` and `CooldownTick`.
- Firebase calls (`signInWithPhoneNumber`, `signInWithCredential`, `getIdToken`, `signOut`) and the reCAPTCHA widget: they are outcomes passed in, plus a widget-present flag. A failure to build the widget (app/verify/page.tsx:152-156) is folded into `SmsFailed`, so in that case `StartResend` still lists a `SendSms` call that the code never makes (app/verify/page.tsx:158). The forced `getIdToken(true)` refresh is the call `RefreshIdToken`, and its failure is the outcome `RefreshFailed`; the token it returns is never used by the page.
- `lib/apiClient.ts` (axios transport and headers), `lib/storage/localPreferences.ts`, `types/global.d.ts` and `app/global.d.ts` are not part of this model.
- Phone-number formatting and validation are not in these files. The page's back button and logging are not modelled.
- Concurrency: interleavings are the order of events given to `VerifyPage.Run`. Two verifications in flight at once are represented only as two settlement events.
- `encodeURIComponent` throws on a lone surrogate. Dafny characters are Unicode scalar values, so that input cannot be written here.
- UriComponent.Encode: it carries no contract of its own. Its properties are stated in the lemmas `DecodeEncode`, `EncodeEmittable`, `EncodeUnescaped` and `EncodeInjective`.
- VerifyPage.TokenText: a response whose JSON has `"token": null` would put the text "null" in the link; `Option<string>` does not tell a null token from a missing one, so that case is not modelled.

=== FILE: auth_api.dfy ===
/** The backend calls the verification flow makes (lib/api/authApi.ts): the
    two sign-in requests with their response-envelope check, and logout and
    account deletion, which always end by clearing local storage. The HTTP
    transport is abstract: a request either throws or answers with a status
    and a JSON payload. */
module AuthApi {
  import opened Wrappers

  /** A JSON object of string fields, in the order the code writes them. */
  type JsonObject = seq<(string, string)>

  datatype Request = Post(path: string, body: JsonObject)

  /** The `{ uid, email, screenName }` argument of the sign-in calls. */
  datatype SignInParams = SignInParams(uid: string, email: string, screenName: string)

  /** `SignInResponse`; the token is optional because the code casts the
      payload without checking that the field is there. */
  datatype SignInResponse = SignInResponse(token: Option<string>, isDoneSignIn: bool)

  /** `response.data`: the backend's own status and its `data` member. */
  datatype Payload = Payload(status: Option<int>, data: Option<SignInResponse>)

  /** What the transport delivers: an exception, or an HTTP status with a payload. */
  datatype HttpOutcome = TransportError | Response(status: int, payload: Payload)

  /** Why a sign-in call rejects. */
  datatype SignInError = EnvelopeRejected(httpStatus: int, payloadStatus: Option<int>) | TransportFailed

  /** One sign-in call: the request sent and the promise's outcome. */
  datatype SignInCall = SignInCall(request: Request, result: Result<Option<SignInResponse>, SignInError>)

  const PhoneSignInPath := "/phone_number_signin"
  const AppleSignInPath := "/apple_signin"
  const LogoutPath := "/logout"
  const DeletePath := "/me/delete"

  /** The request body: `uid` and `email` as given, `screenName` sent under
      the key `screen_name`. */
  function SignInBody(p: SignInParams): (body: JsonObject)
    ensures |body| == 3
    ensures forall i :: 0 <= i < |body| ==> body[i].0 != "screenName"
  {
    [("uid", p.uid), ("email", p.email), ("screen_name", p.screenName)]
  }

  /** The value of the first field named `key`. */
  function Field(body: JsonObject, key: string): (r: Option<string>)
    ensures r.None? <==> forall i :: 0 <= i < |body| ==> body[i].0 != key
  {
    if body == [] then None
    else if body[0].0 == key then Some(body[0].1)
    else Field(body[1..], key)
  }

  /** How the backend reads a sign-in body back. */
  function ParamsOf(body: JsonObject): Option<SignInParams>
  {
    match (Field(body, "uid"), Field(body, "email"), Field(body, "screen_name"))
    case (Some(uid), Some(email), Some(name)) => Some(SignInParams(uid, email, name))
    case _ => None
  }

  /** The body carries every argument under its wire name, and no field is
      called `screenName`. */
  lemma SignInBodyRoundTrip(p: SignInParams)
    ensures ParamsOf(SignInBody(p)) == Some(p)
    ensures Field(SignInBody(p), "screenName").None?
  {
    var body := SignInBody(p);
    assert "uid" != "email" && "uid" != "screen_name" && "email" != "screen_name";
    assert body[1..][1..] == [("screen_name", p.screenName)];
    assert Field(body, "email") == Some(p.email);
    assert Field(body[1..][1..], "screen_name") == Some(p.screenName);
    assert Field(body[1..], "screen_name") == Some(p.screenName);
    assert Field(body, "screen_name") == Some(p.screenName);
  }

  /** `response.status === 200 && response.data.status === 200`. */
  predicate Accepted(o: HttpOutcome) {
    o.Response? && o.status == 200 && o.payload.status == Some(200)
  }

  /** The shared shape of both sign-in calls: post the body to `path`;
      resolve with `response.data.data` only when both statuses are 200,
      reject otherwise, and reject when the transport throws. */
  function SignIn(path: string, p: SignInParams, o: HttpOutcome): (r: SignInCall)
    ensures r.request == Post(path, SignInBody(p))
    ensures r.result.Success? <==> Accepted(o)
    ensures r.result.Success? ==> r.result.value == o.payload.data
    ensures o.TransportError? ==> r.result == Failure(TransportFailed)
  {
    var request := Post(path, SignInBody(p));
    match o
    case TransportError => SignInCall(request, Failure(TransportFailed))
    case Response(status, payload) =>
      if status == 200 && payload.status == Some(200) then SignInCall(request, Success(payload.data))
      else SignInCall(request, Failure(EnvelopeRejected(status, payload.status)))
  }

  /** `AuthApi.phoneNumberSignIn`. */
  function PhoneNumberSignIn(p: SignInParams, o: HttpOutcome): (r: SignInCall)
    ensures r.request.path == PhoneSignInPath
  {
    SignIn(PhoneSignInPath, p, o)
  }

  /** `AuthApi.AppleSignIn`. */
  function AppleSignIn(p: SignInParams, o: HttpOutcome): (r: SignInCall)
    ensures r.request.path == AppleSignInPath
  {
    SignIn(AppleSignInPath, p, o)
  }

  /** The two sign-in calls accept and reject the same responses and send the
      same body; only the endpoint differs. */
  lemma AppleSignInMatchesPhone(p: SignInParams, o: HttpOutcome)
    ensures AppleSignIn(p, o).result == PhoneNumberSignIn(p, o).result
    ensures AppleSignIn(p, o).request.body == PhoneNumberSignIn(p, o).request.body
    ensures AppleSignIn(p, o).request.path != PhoneNumberSignIn(p, o).request.path
  {
  }

  /** A non-200 payload status is a rejection even over HTTP 200, and a
      non-200 HTTP status is one whatever the payload says. */
  lemma SignInRejections(p: SignInParams, payload: Payload, status: int)
    ensures payload.status != Some(200) ==>
      PhoneNumberSignIn(p, Response(200, payload)).result.Failure?
    ensures status != 200 ==>
      PhoneNumberSignIn(p, Response(status, payload)).result.Failure?
  {
  }

  /** Local storage as a string-to-string map. */
  type Storage = map<string, string>

  /** A logout or delete call: the request sent and local storage after it. */
  datatype SessionEnd = SessionEnd(request: Request, storage: Storage)

  /** `AuthApi.logout` / `AuthApi.delete`: post an empty body, ignore any
      failure, then clear local storage. */
  function EndSession(path: string, storage: Storage, o: HttpOutcome): (r: SessionEnd)
    ensures r.request == Post(path, [])
    ensures r.storage == map[]
  {
    SessionEnd(Post(path, []), map[])
  }

  function Logout(storage: Storage, o: HttpOutcome): (r: SessionEnd)
    ensures r.request.path == LogoutPath
  {
    EndSession(LogoutPath, storage, o)
  }

  function Delete(storage: Storage, o: HttpOutcome): (r: SessionEnd)
    ensures r.request.path == DeletePath
  {
    EndSession(DeletePath, storage, o)
  }

  /** Whether the request failed or not, logout and delete leave nothing
      stored, and the outcome of the request does not change the result. */
  lemma SessionEndIgnoresOutcome(storage: Storage, o: HttpOutcome, o': HttpOutcome)
    ensures Logout(storage, o) == Logout(storage, o') && Logout(storage, o).storage == map[]
    ensures Delete(storage, o) == Delete(storage, o') && Delete(storage, o).storage == map[]
  {
  }
}

=== FILE: links.dfy ===
/** The two deep links the site hands to the mobile application: the
    verification link built after a successful phone sign-in
    (app/verify/page.tsx) and the onboarding link the landing page builds from
    its `code` query parameter (app/page.tsx). */
module Links {
  import opened Wrappers
  import opened Text
  import opened UriComponent

  const VerifyBase := "https://pui.onelink.me/kFYQ/pucreauth"
  const UidField := "?uid="
  const TokenField := "&token="
  const OnboardingBase := "https://pui.onelink.me/kFYQ/?code="

  /** The link that carries the signed-in user's id and the backend token. */
  function VerifyLink(uid: string, token: string): (url: string)
    ensures StartsWith(url, VerifyBase + UidField)
  {
    VerifyBase + UidField + Encode(uid) + TokenField + Encode(token)
  }

  /** After the fixed head of a verification link, the encoded user id runs
      up to the first `&`, so no user id can spill into the token field. */
  lemma UidEndsAtFirstAmpersand(uid: string, token: string)
    ensures var url := VerifyLink(uid, token);
      IndexOf(url[|VerifyBase + UidField|..], '&') == Some(|Encode(uid)|)
  {
    var head := VerifyBase + UidField;
    var query := Encode(uid) + TokenField + Encode(token);
    assert VerifyLink(uid, token) == head + query;
    StripHead(head, query);
    NoAmpersand(uid);
    SplitAtSeparator(Encode(uid), TokenField, Encode(token));
  }

  /** What the application does with a verification link: take the text
      between `?uid=` and the first `&`, expect `token=` after it, and
      percent-decode both values. */
  function ParseVerifyLink(url: string): Option<(string, string)>
  {
    var head := VerifyBase + UidField;
    if StartsWith(url, head) then ParseQuery(url[|head|..]) else None
  }

  function ParseQuery(query: string): Option<(string, string)>
  {
    match IndexOf(query, '&')
    case None => None
    case Some(i) =>
      var rest := query[i..];
      if !StartsWith(rest, TokenField) then None
      else match (Decode(query[..i]), Decode(rest[|TokenField|..]))
        case (Some(uid), Some(token)) => Some((uid, token))
        case _ => None
  }

  lemma StripHead(head: string, tail: string)
    ensures StartsWith(head + tail, head) && (head + tail)[|head|..] == tail
  {
  }

  /** Splitting `a + sep + b` at its first `&`, where `a` has none and `sep`
      starts with one. Automatic induction is switched off because its
      hypotheses only slow this direct proof down. */
  lemma {:induction false} SplitAtSeparator(a: string, sep: string, b: string)
    requires '&' !in a && sep != [] && sep[0] == '&'
    ensures IndexOf(a + sep + b, '&') == Some(|a|)
    ensures (a + sep + b)[..|a|] == a && (a + sep + b)[|a|..] == sep + b
    ensures StartsWith(sep + b, sep) && (sep + b)[|sep|..] == b
  {
    assert a + sep + b == a + ['&'] + (sep[1..] + b);
    IndexOfAfter(a, '&', sep[1..] + b);
  }

  lemma NoAmpersand(s: string)
    ensures '&' !in Encode(s)
  {
    EncodeEmittable(s);
  }

  lemma ParseQueryInverts(uid: string, token: string)
    ensures ParseQuery(Encode(uid) + TokenField + Encode(token)) == Some((uid, token))
  {
    NoAmpersand(uid);
    SplitAtSeparator(Encode(uid), TokenField, Encode(token));
    DecodeEncode(uid);
    DecodeEncode(token);
  }

  /** The application reads back exactly the uid and token the page put in. */
  lemma ParseVerifyLinkInverts(uid: string, token: string)
    ensures ParseVerifyLink(VerifyLink(uid, token)) == Some((uid, token))
  {
    var head := VerifyBase + UidField;
    var query := Encode(uid) + TokenField + Encode(token);
    assert VerifyLink(uid, token) == head + query;
    StripHead(head, query);
    ParseQueryInverts(uid, token);
  }

  /** Different sign-ins give different links. */
  lemma VerifyLinkInjective(uid: string, token: string, uid': string, token': string)
    requires VerifyLink(uid, token) == VerifyLink(uid', token')
    ensures uid == uid' && token == token'
  {
    ParseVerifyLinkInverts(uid, token);
    ParseVerifyLinkInverts(uid', token');
  }

  /** Landing page: a present, non-empty `code` parameter is appended to the
      onboarding link as it is, without encoding; otherwise there is no link. */
  function OnboardingLink(code: Option<string>): (r: Option<string>)
    ensures r.Some? <==> code.Some? && code.value != ""
    ensures r.Some? ==> StartsWith(r.value, OnboardingBase) && r.value[|OnboardingBase|..] == code.value
  {
    if code.Some? && code.value != "" then Some(OnboardingBase + code.value) else None
  }

  /** Removing the fixed prefix from an onboarding link gives back the code,
      so two different codes never share a link. */
  lemma OnboardingLinkInjective(a: string, b: string)
    requires a != "" && b != ""
    requires OnboardingLink(Some(a)) == OnboardingLink(Some(b))
    ensures a == b
  {
  }

  /** The button both pages show: a link to the app when the redirect is
      set, otherwise a disabled loading button. */
  datatype AppButton = OpenApp(href: string) | Loading

  /** `redirectUrl ? <a href=…> : <Button disabled>`: a null or empty URL is
      falsy. */
  function ButtonFor(redirect: Option<string>): (v: AppButton)
    ensures v.OpenApp? <==> redirect.Some? && redirect.value != ""
    ensures v.OpenApp? ==> v.href == redirect.value
  {
    if redirect.Some? && redirect.value != "" then OpenApp(redirect.value) else Loading
  }

  /** End to end on the landing page: the app link appears exactly when the
      `code` parameter is present and non-empty, and it carries that code. */
  lemma LandingShowsLinkIffCode(code: Option<string>)
    ensures ButtonFor(OnboardingLink(code)).OpenApp? <==> code.Some? && code.value != ""
    ensures ButtonFor(OnboardingLink(code)).OpenApp? ==>
      ButtonFor(OnboardingLink(code)).href == OnboardingBase + code.value
  {
  }
}

=== FILE: otp.dfy ===
/** The six-cell one-time-code buffer of the verification page
    (app/verify/page.tsx: `code`, `handleInputChange`, `handleKeyDown`,
    `handlePaste`). Each cell holds the empty string or one digit; focus is a
    cell index. */
module Otp {
  import opened Wrappers
  import opened Text

  const Length: nat := 6

  const EmptyCode: seq<string> := ["", "", "", "", "", ""]

  /** The cleared buffer is well formed and not complete. */
  lemma EmptyCodeIsBlank()
    ensures WellFormed(EmptyCode) && !AllFilled(EmptyCode)
  {
    assert EmptyCode[0] == "";
  }

  /** What a cell can hold: nothing, or exactly one digit. */
  predicate IsCell(cell: string) {
    cell == "" || (|cell| == 1 && IsDigit(cell[0]))
  }

  predicate WellFormed(code: seq<string>) {
    |code| == Length && forall i :: 0 <= i < |code| ==> IsCell(code[i])
  }

  /** `code.every((d) => d !== "")`. */
  predicate AllFilled(code: seq<string>) {
    forall i :: 0 <= i < |code| ==> code[i] != ""
  }

  /** `value.slice(-1)`: the last character, or "" for an empty value. */
  function LastChar(value: string): (r: string)
    ensures |r| == if value == "" then 0 else 1
    ensures r == value[|value| - |r|..]
  {
    if value == [] then "" else [value[|value| - 1]]
  }

  /** Typing `value` into cell `index`: rejected (None) when the value has a
      non-digit, otherwise only that cell changes, to the value's last
      character. */
  function SetCell(code: seq<string>, index: nat, value: string): (r: Option<seq<string>>)
    requires index < |code|
    ensures r.None? <==> !AllDigits(value)
    ensures r.Some? ==> |r.value| == |code| && r.value[index] == LastChar(value)
    ensures r.Some? ==> forall j :: 0 <= j < |code| && j != index ==> r.value[j] == code[j]
    ensures r.Some? && WellFormed(code) ==> WellFormed(r.value)
  {
    if !AllDigits(value) then None
    else Some(code[index := LastChar(value)])
  }

  /** Auto-advance: focus moves to the next cell only for a non-empty value
      typed into one of the first five cells. */
  function FocusAfterInput(index: nat, value: string, focus: nat): (r: nat)
    ensures r != focus ==> value != "" && index < Length - 1 && r == index + 1
    ensures value != "" && index < Length - 1 ==> r == index + 1
  {
    if value != "" && index < Length - 1 then index + 1 else focus
  }

  /** Backspace on an empty cell other than the first moves focus back one
      cell; the buffer itself is never edited by a key press. */
  function FocusAfterKey(code: seq<string>, index: nat, key: string, focus: nat): (r: nat)
    requires index < |code|
    ensures r != focus ==> key == "Backspace" && code[index] == "" && index > 0 && r == index - 1
    ensures key == "Backspace" && code[index] == "" && index > 0 ==> r == index - 1
  {
    if key == "Backspace" && code[index] == "" && index > 0 then index - 1 else focus
  }

  /** The digits a paste contributes: non-digits removed, at most six kept. */
  function PastedDigits(text: string): (r: string)
    ensures AllDigits(r) && |r| <= Length
    ensures AllDigits(text) ==> r == Prefix(text, Length)
  {
    assert AllDigits(text) ==> StripNonDigits(text) == text by {
      if AllDigits(text) { StripKeepsDigits(text); }
    }
    Prefix(StripNonDigits(text), Length)
  }

  /** A non-digit anywhere in the pasted text makes no difference. */
  lemma PasteIgnoresNonDigit(a: string, c: char, b: string)
    requires !IsDigit(c)
    ensures PastedDigits(a + [c] + b) == PastedDigits(a + b)
  {
    StripDropsNonDigit(a, c, b);
  }

  /** Writes `digits[i]` into cell `i` for every `i < |digits|`. */
  function Overlay(code: seq<string>, digits: string): (r: seq<string>)
    requires |digits| <= |code|
    ensures |r| == |code|
    ensures forall i :: 0 <= i < |digits| ==> r[i] == [digits[i]]
    ensures forall i :: |digits| <= i < |code| ==> r[i] == code[i]
  {
    seq(|code|, i requires 0 <= i < |code| => if i < |digits| then [digits[i]] else code[i])
  }

  /** `handlePaste`'s buffer update. */
  function Paste(code: seq<string>, text: string): (r: seq<string>)
    requires |code| == Length
    ensures WellFormed(code) ==> WellFormed(r)
    ensures |StripNonDigits(text)| >= Length ==> AllFilled(r)
  {
    Overlay(code, PastedDigits(text))
  }

  /** Reference for paste: typing the digits one after another into
      successive cells, starting at cell `from`. */
  function TypeInOrder(code: seq<string>, digits: string, from: nat): seq<string>
    requires AllDigits(digits) && |digits| <= |code| && from <= |digits|
    decreases |digits| - from
  {
    if from == |digits| then code
    else TypeInOrder(SetCell(code, from, [digits[from]]).value, digits, from + 1)
  }

  lemma {:induction false} TypeInOrderCells(code: seq<string>, digits: string, from: nat)
    requires AllDigits(digits) && |digits| <= |code| && from <= |digits|
    ensures |TypeInOrder(code, digits, from)| == |code|
    ensures forall i :: 0 <= i < |code| ==>
      TypeInOrder(code, digits, from)[i] == if from <= i < |digits| then [digits[i]] else code[i]
    decreases |digits| - from
  {
    if from < |digits| {
      TypeInOrderCells(SetCell(code, from, [digits[from]]).value, digits, from + 1);
    }
  }

  /** Pasting is the same as typing the pasted digits into cells 0, 1, ...
      in turn. */
  lemma PasteIsTypingInOrder(code: seq<string>, text: string)
    requires |code| == Length
    ensures Paste(code, text) == TypeInOrder(code, PastedDigits(text), 0)
  {
    TypeInOrderCells(code, PastedDigits(text), 0);
  }

  /** `code.join("")`. */
  function Join(code: seq<string>): (r: string)
    ensures (forall i :: 0 <= i < |code| ==> |code[i]| == 1) ==>
      |r| == |code| && forall i :: 0 <= i < |code| ==> r[i] == code[i][0]
  {
    if code == [] then "" else code[0] + Join(code[1..])
  }

  /** A complete buffer joins to a six-digit code, one digit per cell. */
  lemma JoinComplete(code: seq<string>)
    requires WellFormed(code) && AllFilled(code)
    ensures |Join(code)| == Length && AllDigits(Join(code))
    ensures forall i :: 0 <= i < Length ==> code[i] == [Join(code)[i]]
  {
    assert forall i :: 0 <= i < |code| ==> |code[i]| == 1;
  }

  /** Pasting "12ab3456" fills the buffer with 1..6. */
  lemma PasteExample(code: seq<string>)
    requires |code| == Length
    ensures Paste(code, "12ab3456") == ["1", "2", "3", "4", "5", "6"]
  {
    assert StripNonDigits("12ab3456") == "123456";
  }
}

=== FILE: text.dfy ===
/** Small string helpers shared by the OTP buffer, the dialling code and the
    deep-link parser. Strings are sequences of Unicode scalar values. */
module Text {
  import opened Wrappers

  /** JavaScript's `\d` without the `u` flag: an ASCII decimal digit. */
  predicate IsDigit(c: char) {
    '0' <= c <= '9'
  }

  /** `/^\d*$/.test(s)`. */
  predicate AllDigits(s: string) {
    forall i :: 0 <= i < |s| ==> IsDigit(s[i])
  }

  /** `s.replace(/\D/g, "")`: the digits of `s`, in their order. */
  function StripNonDigits(s: string): (r: string)
    ensures AllDigits(r)
    ensures |r| <= |s|
  {
    if s == [] then []
    else if IsDigit(s[0]) then [s[0]] + StripNonDigits(s[1..])
    else StripNonDigits(s[1..])
  }

  /** A string that is already all digits comes through the filter unchanged. */
  lemma {:induction false} StripKeepsDigits(s: string)
    requires AllDigits(s)
    ensures StripNonDigits(s) == s
  {
    if s != [] {
      StripKeepsDigits(s[1..]);
    }
  }

  /** The filter works piecewise: it never looks across a split point. */
  lemma {:induction false} StripDistributes(a: string, b: string)
    ensures StripNonDigits(a + b) == StripNonDigits(a) + StripNonDigits(b)
  {
    if a == [] {
      assert a + b == b;
    } else {
      assert (a + b)[1..] == a[1..] + b;
      StripDistributes(a[1..], b);
    }
  }

  /** On a single character the filter keeps a digit and drops anything
      else; with `StripDistributes` this fixes the filter on every string. */
  lemma StripChar(c: char)
    ensures StripNonDigits([c]) == if IsDigit(c) then [c] else []
  {
  }

  /** A non-digit anywhere in the input contributes nothing. */
  lemma StripDropsNonDigit(a: string, c: char, b: string)
    requires !IsDigit(c)
    ensures StripNonDigits(a + [c] + b) == StripNonDigits(a + b)
  {
    StripDistributes(a + [c], b);
    StripDistributes(a, [c]);
    StripChar(c);
    StripDistributes(a, b);
  }

  /** A digit anywhere in the input is kept, between the digits before it
      and the digits after it. */
  lemma StripKeepsDigit(a: string, c: char, b: string)
    requires IsDigit(c)
    ensures StripNonDigits(a + [c] + b) == StripNonDigits(a) + [c] + StripNonDigits(b)
  {
    StripDistributes(a + [c], b);
    StripDistributes(a, [c]);
    StripChar(c);
  }

  /** Filtering twice is filtering once. */
  lemma StripIdempotent(s: string)
    ensures StripNonDigits(StripNonDigits(s)) == StripNonDigits(s)
  {
    StripKeepsDigits(StripNonDigits(s));
  }

  /** `s.slice(0, n)`: at most the first `n` characters. */
  function Prefix<T>(s: seq<T>, n: nat): (r: seq<T>)
    ensures |r| == if |s| <= n then |s| else n
    ensures r <= s
  {
    if |s| <= n then s else s[..n]
  }

  predicate StartsWith(s: string, p: string) {
    p <= s
  }

  /** Position of the first occurrence of `c` in `s`, if any. */
  function IndexOf(s: string, c: char): (r: Option<nat>)
    ensures r.None? <==> c !in s
    ensures r.Some? ==> r.value < |s| && s[r.value] == c && c !in s[..r.value]
  {
    if s == [] then None
    else if s[0] == c then Some(0)
    else match IndexOf(s[1..], c)
      case None => None
      case Some(i) =>
        assert s[1..][..i] == s[1..i + 1];
        assert s[..i + 1] == [s[0]] + s[1..][..i];
        Some(i + 1)
  }

  /** When `c` does not occur in `a`, the first `c` of `a + [c] + b` is the one after `a`. */
  lemma {:induction false} IndexOfAfter(a: string, c: char, b: string)
    requires c !in a
    ensures IndexOf(a + [c] + b, c) == Some(|a|)
  {
    if a != [] {
      assert (a + [c] + b)[1..] == a[1..] + [c] + b;
      IndexOfAfter(a[1..], c, b);
    }
  }
}

=== FILE: uri.dfy ===
/** `encodeURIComponent` as percent-encoding (section 2.1 of RFC 3986) of the
    UTF-8 bytes (section 3 of RFC 3629) of every character outside
    encodeURIComponent's unescaped set, with upper-case hex digits; and the
    matching `decodeURIComponent` a receiver applies, proved to invert it. */
module UriComponent {
  import opened Wrappers

  /** Characters encodeURIComponent leaves alone: letters, digits and `-_.!~*'()`. */
  predicate Unescaped(c: char) {
    || ('A' <= c <= 'Z') || ('a' <= c <= 'z') || ('0' <= c <= '9')
    || c == '-' || c == '_' || c == '.' || c == '!' || c == '~'
    || c == '*' || c == '\'' || c == '(' || c == ')'
  }

  /** The characters encodeURIComponent can emit. */
  predicate Emittable(r: string) {
    forall i :: 0 <= i < |r| ==> Unescaped(r[i]) || r[i] == '%'
  }

  type Byte = b: int | 0 <= b < 256

  /** The six payload bits of a UTF-8 continuation byte. */
  type Bits6 = x: int | 0 <= x < 64

  predicate IsScalar(cp: int) {
    (0 <= cp < 0xD800) || (0xE000 <= cp < 0x110000)
  }

  function HexDigit(n: nat): (c: char)
    requires n < 16
    ensures Unescaped(c)
  {
    if n < 10 then ('0' as int + n) as char else ('A' as int + (n - 10)) as char
  }

  /** Value of a hex digit of either case. */
  function HexValue(c: char): (r: Option<nat>)
    ensures r.Some? ==> r.value < 16
  {
    if '0' <= c <= '9' then Some(c as int - '0' as int)
    else if 'A' <= c <= 'F' then Some(c as int - 'A' as int + 10)
    else if 'a' <= c <= 'f' then Some(c as int - 'a' as int + 10)
    else None
  }

  /** `%XX` for one byte. */
  function Escape(b: Byte): (r: string)
    ensures |r| == 3 && r[0] == '%'
  {
    ['%', HexDigit(b / 16), HexDigit(b % 16)]
  }

  /** Continuation bytes (10xxxxxx) carrying the given payloads. */
  function Trail(xs: seq<Bits6>): (bytes: seq<Byte>)
    ensures |bytes| == |xs|
  {
    if xs == [] then [] else var b: Byte := 0x80 + xs[0] as int; [b] + Trail(xs[1..])
  }

  /** The UTF-8 encoding of a scalar value: one to four bytes. */
  function Utf8(c: char): (bytes: seq<Byte>)
    ensures 1 <= |bytes| <= 4
  {
    var cp := c as int;
    if cp < 0x80 then [cp]
    else if cp < 0x800 then [0xC0 + cp / 64] + Trail([cp % 64])
    else if cp < 0x10000 then [0xE0 + cp / 64 / 64] + Trail([cp / 64 % 64, cp % 64])
    else [0xF0 + cp / 64 / 64 / 64] + Trail([cp / 64 / 64 % 64, cp / 64 % 64, cp % 64])
  }

  function EscapeAll(bytes: seq<Byte>): (r: string)
    ensures |r| == 3 * |bytes|
  {
    if bytes == [] then "" else Escape(bytes[0]) + EscapeAll(bytes[1..])
  }

  function EncodeChar(c: char): (r: string)
    ensures r != []
  {
    if Unescaped(c) then [c] else EscapeAll(Utf8(c))
  }

  /** `encodeURIComponent(s)`. */
  function Encode(s: string): string
  {
    if s == [] then "" else EncodeChar(s[0]) + Encode(s[1..])
  }

  lemma {:induction false} EscapeAllEmittable(bytes: seq<Byte>)
    ensures Emittable(EscapeAll(bytes))
  {
    if bytes != [] {
      EscapeAllEmittable(bytes[1..]);
    }
  }

  /** The encoding uses only unescaped characters and `%`, so it never
      contains a query delimiter such as `&`, `=`, `?` or `#`. */
  lemma {:induction false} EncodeEmittable(s: string)
    ensures Emittable(Encode(s))
  {
    if s != [] {
      if !Unescaped(s[0]) {
        EscapeAllEmittable(Utf8(s[0]));
      }
      EncodeEmittable(s[1..]);
    }
  }

  /** A string of unescaped characters is its own encoding (an alphanumeric
      token passes through unchanged). */
  lemma {:induction false} EncodeUnescaped(s: string)
    requires forall i :: 0 <= i < |s| ==> Unescaped(s[i])
    ensures Encode(s) == s
  {
    if s != [] {
      EncodeUnescaped(s[1..]);
    }
  }

  /** Reads one `%XX` escape at the front of `s`. */
  function ReadEscape(s: string): (r: Option<Byte>)
    ensures r.Some? ==> |s| >= 3
  {
    if |s| >= 3 && s[0] == '%' then
      match (HexValue(s[1]), HexValue(s[2]))
      case (Some(hi), Some(lo)) => Some(16 * hi + lo)
      case _ => None
    else None
  }

  /** Reads one `%XX` continuation byte and yields its payload bits. */
  function ReadTrail(s: string): (r: Option<Bits6>)
    ensures r.Some? ==> |s| >= 3
  {
    match ReadEscape(s)
    case Some(b) => if 0x80 <= b < 0xC0 then Some(b - 0x80) else None
    case None => None
  }

  /** Reads `k` continuation escapes, appending their payload bits to `acc`. */
  function ReadTrails(s: string, k: nat, acc: int): Option<int>
    decreases k
  {
    if k == 0 then Some(acc)
    else match ReadTrail(s)
      case None => None
      case Some(x) => ReadTrails(s[3..], k - 1, acc * 64 + x)
  }

  /** Number of continuation bytes a UTF-8 lead byte announces, its payload
      bits, and the least scalar value that needs that many bytes; None for a
      byte that cannot start a sequence. */
  function LeadByte(b0: Byte): Option<(nat, int, int)>
  {
    if b0 < 0x80 then Some((0, b0, 0))
    else if 0xC0 <= b0 < 0xE0 then Some((1, b0 - 0xC0, 0x80))
    else if 0xE0 <= b0 < 0xF0 then Some((2, b0 - 0xE0, 0x800))
    else if 0xF0 <= b0 < 0xF8 then Some((3, b0 - 0xF0, 0x10000))
    else None
  }

  /** Decodes the first character of `s`: the character and how many input
      characters it took, or None for a malformed escape (where
      `decodeURIComponent` throws `URIError`, overlong forms included). */
  function DecodeChar(s: string): Option<(char, nat)>
    requires s != []
  {
    if s[0] != '%' then Some((s[0], 1))
    else match ReadEscape(s)
      case None => None
      case Some(b0) =>
        match LeadByte(b0)
        case None => None
        case Some((k, lead, least)) =>
          match ReadTrails(s[3..], k, lead)
          case None => None
          case Some(cp) =>
            if least <= cp && IsScalar(cp) && 3 + 3 * k <= |s| then Some((cp as char, 3 + 3 * k)) else None
  }

  /** `decodeURIComponent(s)`, None where it would throw. */
  function Decode(s: string): Option<string>
    decreases |s|
  {
    if s == [] then Some("")
    else match DecodeChar(s)
      case None => None
      case Some((c, n)) =>
        if n == 0 || n > |s| then None
        else match Decode(s[n..])
          case None => None
          case Some(rest) => Some([c] + rest)
  }

  /** Big-endian base-64 accumulation of payload bits. */
  function Accumulate(acc: int, xs: seq<Bits6>): int
    decreases |xs|
  {
    if xs == [] then acc else Accumulate(acc * 64 + xs[0], xs[1..])
  }

  lemma ReadEscapeOf(b: Byte, rest: string)
    ensures ReadEscape(Escape(b) + rest) == Some(b)
    ensures (Escape(b) + rest)[3..] == rest
  {
    assert HexValue(HexDigit(b / 16)) == Some(b / 16);
    assert HexValue(HexDigit(b % 16)) == Some(b % 16);
  }

  lemma EscapeAllCons(b: Byte, bytes: seq<Byte>, rest: string)
    ensures EscapeAll([b] + bytes) == Escape(b) + EscapeAll(bytes)
    ensures EscapeAll([b] + bytes) + rest == Escape(b) + (EscapeAll(bytes) + rest)
  {
    assert ([b] + bytes)[1..] == bytes;
  }

  lemma ReadTrailsStep(x: Bits6, tail: string, k: nat, acc: int)
    ensures ReadTrails(Escape(0x80 + x) + tail, k + 1, acc) == ReadTrails(tail, k, acc * 64 + x)
  {
    ReadEscapeOf(0x80 + x, tail);
  }

  lemma ReadTrailsCons(xs: seq<Bits6>, rest: string, acc: int)
    requires xs != []
    ensures ReadTrails(EscapeAll(Trail(xs)) + rest, |xs|, acc)
         == ReadTrails(EscapeAll(Trail(xs[1..])) + rest, |xs[1..]|, acc * 64 + xs[0])
  {
    assert Trail(xs) == [(0x80 + xs[0] as int) as Byte] + Trail(xs[1..]);
    EscapeAllCons(0x80 + xs[0] as int, Trail(xs[1..]), rest);
    ReadTrailsStep(xs[0], EscapeAll(Trail(xs[1..])) + rest, |xs[1..]|, acc);
  }

  lemma {:induction false} ReadTrailsOf(xs: seq<Bits6>, rest: string, acc: int)
    ensures ReadTrails(EscapeAll(Trail(xs)) + rest, |xs|, acc) == Some(Accumulate(acc, xs))
  {
    if xs == [] {
      assert EscapeAll(Trail(xs)) + rest == rest;
    } else {
      ReadTrailsCons(xs, rest, acc);
      ReadTrailsOf(xs[1..], rest, acc * 64 + xs[0]);
      assert Accumulate(acc, xs) == Accumulate(acc * 64 + xs[0], xs[1..]);
    }
  }

  lemma DecodeCharEscaped(s: string, b0: Byte, k: nat, lead: int, least: int, cp: int)
    requires |s| >= 3 + 3 * k && s[0] == '%'
    requires ReadEscape(s) == Some(b0) && LeadByte(b0) == Some((k, lead, least))
    requires ReadTrails(s[3..], k, lead) == Some(cp)
    requires least <= cp && IsScalar(cp)
    ensures DecodeChar(s) == Some((cp as char, 3 + 3 * k))
  {
  }

  /** Decoding a lead escape followed by its continuation escapes. */
  lemma DecodeSequence(b0: Byte, xs: seq<Bits6>, rest: string)
    requires LeadByte(b0).Some? && LeadByte(b0).value.0 == |xs|
    requires LeadByte(b0).value.2 <= Accumulate(LeadByte(b0).value.1, xs)
    requires IsScalar(Accumulate(LeadByte(b0).value.1, xs))
    ensures DecodeChar(EscapeAll([b0] + Trail(xs)) + rest)
         == Some((Accumulate(LeadByte(b0).value.1, xs) as char, 3 + 3 * |xs|))
  {
    var (k, lead, least) := LeadByte(b0).value;
    var tail := EscapeAll(Trail(xs)) + rest;
    var s := Escape(b0) + tail;
    EscapeAllCons(b0, Trail(xs), rest);
    ReadEscapeOf(b0, tail);
    ReadTrailsOf(xs, rest, lead);
    DecodeCharEscaped(s, b0, k, lead, least, Accumulate(lead, xs));
  }

  /** The UTF-8 bytes of a character outside the ASCII range, as a lead byte
      and continuation payloads that accumulate back to the character. */
  lemma Utf8Split(c: char) returns (b0: Byte, xs: seq<Bits6>)
    requires 0x80 <= c as int
    ensures Utf8(c) == [b0] + Trail(xs)
    ensures LeadByte(b0).Some? && LeadByte(b0).value.0 == |xs|
    ensures LeadByte(b0).value.2 <= c as int
    ensures Accumulate(LeadByte(b0).value.1, xs) == c as int
  {
    var cp := c as int;
    var q1 := cp / 64;
    var q2 := q1 / 64;
    var q3 := q2 / 64;
    assert cp == q1 * 64 + cp % 64 && q1 == q2 * 64 + q1 % 64 && q2 == q3 * 64 + q2 % 64;
    if cp < 0x800 {
      b0, xs := 0xC0 + q1, [cp % 64];
      assert Accumulate(q1, xs) == Accumulate(q1 * 64 + cp % 64, []);
    } else if cp < 0x10000 {
      b0, xs := 0xE0 + q2, [q1 % 64, cp % 64];
      assert Accumulate(q2, xs) == Accumulate(q1, [cp % 64]);
      assert Accumulate(q1, [cp % 64]) == Accumulate(cp, []);
    } else {
      b0, xs := 0xF0 + q3, [q2 % 64, q1 % 64, cp % 64];
      assert Accumulate(q3, xs) == Accumulate(q2, [q1 % 64, cp % 64]);
      assert Accumulate(q2, [q1 % 64, cp % 64]) == Accumulate(q1, [cp % 64]);
      assert Accumulate(q1, [cp % 64]) == Accumulate(cp, []);
    }
  }

  lemma DecodeEncodeChar(c: char, rest: string)
    ensures DecodeChar(EncodeChar(c) + rest) == Some((c, |EncodeChar(c)|))
  {
    var cp := c as int;
    if Unescaped(c) {
      assert (EncodeChar(c) + rest)[0] == c;
    } else if cp < 0x80 {
      assert Utf8(c) == [cp] + Trail([]);
      DecodeSequence(cp, [], rest);
    } else {
      var b0, xs := Utf8Split(c);
      DecodeSequence(b0, xs, rest);
    }
  }

  /** The receiver recovers exactly the encoded string. */
  lemma {:induction false} DecodeEncode(s: string)
    ensures Decode(Encode(s)) == Some(s)
  {
    if s != [] {
      var e, tail := EncodeChar(s[0]), Encode(s[1..]);
      assert Encode(s) == e + tail;
      DecodeEncodeChar(s[0], tail);
      assert (e + tail)[|e|..] == tail;
      DecodeEncode(s[1..]);
      assert [s[0]] + s[1..] == s;
    }
  }

  /** Distinct strings have distinct encodings. */
  lemma EncodeInjective(s: string, t: string)
    requires Encode(s) == Encode(t)
    ensures s == t
  {
    DecodeEncode(s);
    DecodeEncode(t);
  }
}

=== FILE: verify_page.dfy ===
/** The phone-verification page (app/verify/page.tsx) as a state record and
    pure transitions. Every call to the identity provider, the SMS dispatcher
    or the backend is an abstract outcome passed in, and each transition
    reports the external calls it makes. Timers are events: the 300 ms delay
    before verification and the one-second cooldown tick. */
module VerifyPage {
  import opened Wrappers
  import opened Text
  import Otp
  import opened AuthApi
  import opened Links

  /** Local-storage key of the verification handle. */
  const HandleKey := "verificationId"
  /** Country calling code put in front of the dialled digits. */
  const DialPrefix := "+81"
  /** Seconds before another resend is offered. */
  const ResendCooldown: nat := 60

  const InvalidCodeError := "auth/invalid-verification-code"
  const ExpiredCodeError := "auth/code-expired"

  const MsgInvalidCode := "認証コードが正しくありません"
  const MsgCodeExpired := "認証コードの有効期限が切れています"
  const MsgVerifyFailed := "認証に失敗しました。もう一度お試しください。"
  const MsgResendFailed := "SMS再送信に失敗しました"

  /** The page's React state plus the browser globals it touches: local
      storage, the in-memory copy of the handle (`window.verificationId`) and
      whether the anti-abuse widget (`window.recaptchaVerifier`) exists. */
  datatype PageState = PageState(
    phone: string,
    code: seq<string>,
    isComplete: bool,
    isVerifying: bool,
    isVerified: bool,
    error: string,
    cooldown: nat,
    redirect: Option<string>,
    focus: nat,
    storage: Storage,
    memoryHandle: Option<string>,
    widget: bool)

  /** Calls the page makes to the outside world. */
  datatype Call =
    | Redeem(handle: string, code: string)
    | RefreshIdToken
    | Backend(request: Request)
    | SendSms(phone: string)
    | SignOut

  /** What the identity provider does with a credential: sign the user in
      and refresh their id token, fail the sign-in with an error code, or
      sign in but fail the forced token refresh with an error code. */
  datatype ProviderOutcome =
    | SignedIn(uid: string)
    | ProviderFailed(code: string)
    | RefreshFailed(code: string)

  /** How a verification attempt ends: a user id and backend token, or an
      error whose `code` property is given when it has one. */
  datatype VerifyOutcome = Verified(uid: string, token: string) | Rejected(errorCode: Option<string>)

  /** What the dispatcher does with a resend: a new verification handle, or
      an error. */
  datatype SmsOutcome = SmsSent(verificationId: string) | SmsFailed

  /** The six cells, the flags and the cooldown keep these relations in
      every state the page can reach. */
  predicate Inv(s: PageState) {
    && Otp.WellFormed(s.code)
    && s.isComplete == Otp.AllFilled(s.code)
    && s.focus < Otp.Length
    && s.cooldown <= ResendCooldown
    && (s.isVerified <==> s.redirect.Some?)
    && (s.redirect.Some? ==> ParseVerifyLink(s.redirect.value).Some?)
  }

  /** The page on first render; `phone` is `searchParams.get("phone") || ""`
      and the first cell has focus. */
  function Initial(phoneParam: Option<string>, storage: Storage, memoryHandle: Option<string>, widget: bool): (s: PageState)
    ensures Inv(s)
    ensures s.code == Otp.EmptyCode && !s.isVerifying && !s.isVerified && s.cooldown == 0
  {
    Otp.EmptyCodeIsBlank();
    PageState(
      if phoneParam.Some? then phoneParam.value else "",
      Otp.EmptyCode, false, false, false, "", 0, None, 0,
      storage, memoryHandle, widget)
  }

  // ---------------------------------------------------------------------
  // Code entry

  /** A handler's new state and, when the buffer became complete, the code
      handed to the delayed verification. */
  datatype InputStep = InputStep(state: PageState, scheduled: Option<seq<string>>)

  /** `handleInputChange(index, value)`. */
  function InputChange(s: PageState, index: nat, value: string): (r: InputStep)
    requires index < |s.code|
    ensures !AllDigits(value) ==> r == InputStep(s, None)
    ensures AllDigits(value) ==>
      && |r.state.code| == |s.code|
      && r.state.code[index] == Otp.LastChar(value)
      && (forall j :: 0 <= j < |s.code| && j != index ==> r.state.code[j] == s.code[j])
      && r.state.error == ""
      && r.state.focus == Otp.FocusAfterInput(index, value, s.focus)
      && r.state.isComplete == Otp.AllFilled(r.state.code)
      && r.state.(code := s.code, error := s.error, focus := s.focus, isComplete := s.isComplete) == s
    ensures r.scheduled.Some? <==> AllDigits(value) && Otp.AllFilled(r.state.code)
    ensures r.scheduled.Some? ==> r.scheduled.value == r.state.code
  {
    match Otp.SetCell(s.code, index, value)
    case None => InputStep(s, None)
    case Some(code) =>
      var complete := Otp.AllFilled(code);
      InputStep(
        s.(code := code, error := "", focus := Otp.FocusAfterInput(index, value, s.focus), isComplete := complete),
        if complete then Some(code) else None)
  }

  /** `handleKeyDown(index, e)`: only focus can move. */
  function KeyDown(s: PageState, index: nat, key: string): (r: PageState)
    requires index < |s.code|
    ensures r.(focus := s.focus) == s
    ensures r.focus == Otp.FocusAfterKey(s.code, index, key, s.focus)
  {
    s.(focus := Otp.FocusAfterKey(s.code, index, key, s.focus))
  }

  /** `handlePaste`: the pasted digits overwrite the leading cells; the error
      message and focus stay as they were. */
  function Paste(s: PageState, text: string): (r: InputStep)
    requires |s.code| == Otp.Length
    ensures r.state.code == Otp.Paste(s.code, text)
    ensures r.state.isComplete == Otp.AllFilled(r.state.code)
    ensures r.state.(code := s.code, isComplete := s.isComplete) == s
    ensures r.scheduled.Some? <==> Otp.AllFilled(r.state.code)
    ensures r.scheduled.Some? ==> r.scheduled.value == r.state.code
  {
    var code := Otp.Paste(s.code, text);
    var complete := Otp.AllFilled(code);
    InputStep(s.(code := code, isComplete := complete), if complete then Some(code) else None)
  }

  /** Nothing guards against a second verification: while the first one is
      still pending, retyping the last cell of a complete buffer schedules
      another. */
  lemma CompleteBufferSchedulesAgain(s: PageState, d: char)
    requires Inv(s) && s.isComplete && IsDigit(d)
    ensures InputChange(s, Otp.Length - 1, [d]).scheduled.Some?
  {
    assert AllDigits([d]);
    var code := InputChange(s, Otp.Length - 1, [d]).state.code;
    assert code[Otp.Length - 1] == [d];
    assert forall j :: 0 <= j < |code| ==> code[j] != "" by {
      forall j | 0 <= j < |code|
        ensures code[j] != ""
      {
        if j != Otp.Length - 1 {
          assert code[j] == s.code[j];
        }
      }
    }
  }

  // ---------------------------------------------------------------------
  // Verification

  /** `localStorage.getItem("verificationId") || window.verificationId`,
      then the falsy check: an empty string counts as missing. */
  function LookupHandle(storage: Storage, memoryHandle: Option<string>): (r: Option<string>)
    ensures r.Some? ==> r.value != ""
    ensures HandleKey in storage && storage[HandleKey] != "" ==> r == Some(storage[HandleKey])
    ensures !(HandleKey in storage && storage[HandleKey] != "") ==>
      r == (if memoryHandle.Some? && memoryHandle.value != "" then memoryHandle else None)
  {
    if HandleKey in storage && storage[HandleKey] != "" then Some(storage[HandleKey])
    else if memoryHandle.Some? && memoryHandle.value != "" then memoryHandle
    else None
  }

  /** `encodeURIComponent(apiResponse.token)` reads a missing token as the
      string "undefined". */
  function TokenText(token: Option<string>): (r: string)
    ensures token.Some? ==> r == token.value
    ensures token.None? ==> r == "undefined"
  {
    match token
    case Some(t) => t
    case None => "undefined"
  }

  datatype AttemptRun = AttemptRun(outcome: VerifyOutcome, calls: seq<Call>)

  /** The body of `handleVerify`'s `try` block: look up the handle, redeem
      the code with the provider, force a refresh of the id token, exchange
      the user id with the backend. Any thrown error ends the attempt. */
  function Attempt(handle: Option<string>, codeText: string, redeem: ProviderOutcome, backend: HttpOutcome): (r: AttemptRun)
    ensures handle.None? ==> r == AttemptRun(Rejected(None), [])
    ensures handle.Some? ==> |r.calls| >= 1 && r.calls[0] == Redeem(handle.value, codeText)
    ensures handle.Some? && redeem.ProviderFailed? ==>
      r == AttemptRun(Rejected(Some(redeem.code)), [Redeem(handle.value, codeText)])
    ensures handle.Some? && redeem.RefreshFailed? ==>
      r == AttemptRun(Rejected(Some(redeem.code)), [Redeem(handle.value, codeText), RefreshIdToken])
    ensures handle.Some? && redeem.SignedIn? ==>
      r.calls == [Redeem(handle.value, codeText), RefreshIdToken,
                  Backend(Post(PhoneSignInPath, SignInBody(SignInParams(redeem.uid, "", ""))))]
    ensures r.outcome.Verified? <==>
      handle.Some? && redeem.SignedIn? && Accepted(backend) && backend.payload.data.Some?
    ensures r.outcome.Verified? ==>
      r.outcome.uid == redeem.uid && r.outcome.token == TokenText(backend.payload.data.value.token)
    ensures r.outcome.Rejected? && !(handle.Some? && !redeem.SignedIn?) ==> r.outcome.errorCode.None?
  {
    match handle
    case None => AttemptRun(Rejected(None), [])
    case Some(h) =>
      var redeemCall := Redeem(h, codeText);
      match redeem
      case ProviderFailed(code) => AttemptRun(Rejected(Some(code)), [redeemCall])
      case RefreshFailed(code) => AttemptRun(Rejected(Some(code)), [redeemCall, RefreshIdToken])
      case SignedIn(uid) =>
        var exchange := PhoneNumberSignIn(SignInParams(uid, "", ""), backend);
        var calls := [redeemCall, RefreshIdToken, Backend(exchange.request)];
        match exchange.result
        case Failure(_) => AttemptRun(Rejected(None), calls)
        case Success(None) => AttemptRun(Rejected(None), calls)
        case Success(Some(response)) => AttemptRun(Verified(uid, TokenText(response.token)), calls)
  }

  /** The message shown for a failed verification. */
  function ErrorMessage(errorCode: Option<string>): (m: string)
    ensures m == MsgInvalidCode <==> errorCode == Some(InvalidCodeError)
    ensures m == MsgCodeExpired <==> errorCode == Some(ExpiredCodeError)
    ensures m == MsgVerifyFailed <==> errorCode != Some(InvalidCodeError) && errorCode != Some(ExpiredCodeError)
  {
    if errorCode == Some(InvalidCodeError) then MsgInvalidCode
    else if errorCode == Some(ExpiredCodeError) then MsgCodeExpired
    else MsgVerifyFailed
  }

  /** The synchronous start of `handleVerify`: the spinner is on and the
      error is cleared while the calls are in flight. */
  function BeginVerify(s: PageState): (r: PageState)
    ensures r.isVerifying && r.error == ""
    ensures r.(isVerifying := s.isVerifying, error := s.error) == s
  {
    s.(isVerifying := true, error := "")
  }

  /** How `handleVerify` settles. Success sets the deep link and the
      verified flag; any failure shows the mapped message and empties the
      buffer with focus back on the first cell. */
  function FinishVerify(s: PageState, o: VerifyOutcome): (r: PageState)
    ensures !r.isVerifying
    ensures o.Verified? ==>
      && r.isVerified && r.redirect == Some(VerifyLink(o.uid, o.token))
      && r.(isVerified := s.isVerified, redirect := s.redirect, isVerifying := s.isVerifying) == s
    ensures o.Rejected? ==>
      && r.code == Otp.EmptyCode && !r.isComplete && r.focus == 0
      && r.error == ErrorMessage(o.errorCode)
      && r.(code := s.code, isComplete := s.isComplete, focus := s.focus, error := s.error,
            isVerifying := s.isVerifying) == s
  {
    match o
    case Verified(uid, token) =>
      s.(redirect := Some(VerifyLink(uid, token)), isVerified := true, isVerifying := false)
    case Rejected(errorCode) =>
      s.(error := ErrorMessage(errorCode), isVerifying := false, code := Otp.EmptyCode,
         isComplete := false, focus := 0)
  }

  datatype VerifyRun = VerifyRun(state: PageState, calls: seq<Call>)

  /** `handleVerify(codeToVerify)` from start to settlement. */
  function Verify(s: PageState, codeToVerify: seq<string>, redeem: ProviderOutcome, backend: HttpOutcome): (r: VerifyRun)
    ensures !r.state.isVerifying
    ensures LookupHandle(s.storage, s.memoryHandle).None? ==>
      && r.calls == []
      && r.state.error == MsgVerifyFailed
      && r.state.code == Otp.EmptyCode && !r.state.isComplete
    ensures LookupHandle(s.storage, s.memoryHandle).Some? ==>
      |r.calls| >= 1 && r.calls[0] == Redeem(LookupHandle(s.storage, s.memoryHandle).value, Otp.Join(codeToVerify))
    ensures r.state.isVerified <==> s.isVerified || Attempt(LookupHandle(s.storage, s.memoryHandle), Otp.Join(codeToVerify), redeem, backend).outcome.Verified?
  {
    var started := BeginVerify(s);
    var run := Attempt(LookupHandle(started.storage, started.memoryHandle), Otp.Join(codeToVerify), redeem, backend);
    VerifyRun(FinishVerify(started, run.outcome), run.calls)
  }

  /** A successful verification leaves a link that names the signed-in user
      and the backend token, after three calls: the provider redemption,
      the forced id-token refresh and the backend exchange with an empty
      email and screen name. */
  lemma VerifiedRedirectNamesUser(s: PageState, codeToVerify: seq<string>, redeem: ProviderOutcome, backend: HttpOutcome)
    requires Attempt(LookupHandle(s.storage, s.memoryHandle), Otp.Join(codeToVerify), redeem, backend).outcome.Verified?
    ensures Verify(s, codeToVerify, redeem, backend).state.isVerified
    ensures ParseVerifyLink(Verify(s, codeToVerify, redeem, backend).state.redirect.value)
      == Some((redeem.uid, TokenText(backend.payload.data.value.token)))
    ensures ParamsOf(Verify(s, codeToVerify, redeem, backend).calls[2].request.body) == Some(SignInParams(redeem.uid, "", ""))
  {
    ParseVerifyLinkInverts(redeem.uid, TokenText(backend.payload.data.value.token));
    SignInBodyRoundTrip(SignInParams(redeem.uid, "", ""));
  }

  /** A failed verification never signs the user out and never sets a link:
      it shows the mapped message and hands back an empty buffer. */
  lemma FailedVerifyResetsEntry(s: PageState, codeToVerify: seq<string>, redeem: ProviderOutcome, backend: HttpOutcome)
    requires !s.isVerified
    requires Attempt(LookupHandle(s.storage, s.memoryHandle), Otp.Join(codeToVerify), redeem, backend).outcome.Rejected?
    ensures var r := Verify(s, codeToVerify, redeem, backend);
      && SignOut !in r.calls
      && !r.state.isVerified && r.state.redirect == s.redirect
      && r.state.code == Otp.EmptyCode && r.state.focus == 0
      && r.state.error == ErrorMessage(Attempt(LookupHandle(s.storage, s.memoryHandle), Otp.Join(codeToVerify), redeem, backend).outcome.errorCode)
  {
  }

  /** The event system settles a verification exactly as `Verify` does:
      the due event followed by the settlement of the same attempt reaches
      the same state. */
  lemma VerifyEventsMatchVerify(s: PageState, codeToVerify: seq<string>, redeem: ProviderOutcome, backend: HttpOutcome)
    requires |s.code| == Otp.Length
    requires LookupHandle(s.storage, s.memoryHandle).Some?
    ensures var o := Attempt(LookupHandle(s.storage, s.memoryHandle), Otp.Join(codeToVerify), redeem, backend).outcome;
      |Next(s, VerifyDue).code| == Otp.Length &&
      Next(Next(s, VerifyDue), VerifySettled(o)) == Verify(s, codeToVerify, redeem, backend).state
  {
  }

  /** When no handle can be found, the due event alone fails the attempt,
      as `Verify` does without calling anything. */
  lemma MissingHandleFailsAtOnce(s: PageState, codeToVerify: seq<string>, redeem: ProviderOutcome, backend: HttpOutcome)
    requires |s.code| == Otp.Length
    requires LookupHandle(s.storage, s.memoryHandle).None?
    ensures Next(s, VerifyDue) == Verify(s, codeToVerify, redeem, backend).state
    ensures Verify(s, codeToVerify, redeem, backend).calls == []
  {
  }

  /** A paste with at least six digits in it schedules verification of its
      first six digits. */
  lemma PasteSchedulesDigits(s: PageState, text: string)
    requires Otp.WellFormed(s.code)
    requires |StripNonDigits(text)| >= Otp.Length
    ensures Paste(s, text).scheduled.Some?
    ensures Otp.Join(Paste(s, text).scheduled.value) == Prefix(StripNonDigits(text), Otp.Length)
  {
    var code := Paste(s, text).state.code;
    var digits := Otp.PastedDigits(text);
    assert forall i :: 0 <= i < |code| ==> code[i] == [digits[i]];
    Otp.JoinComplete(code);
  }

  // ---------------------------------------------------------------------
  // Resend and cooldown

  datatype ResendStep = ResendStep(state: PageState, calls: seq<Call>)

  /** The number dialled: the calling code followed by the digits of the
      `phone` parameter. */
  function DialledNumber(phone: string): (n: string)
    ensures StartsWith(n, DialPrefix) && AllDigits(n[|DialPrefix|..])
    ensures AllDigits(phone) ==> n == DialPrefix + phone
  {
    var n := DialPrefix + StripNonDigits(phone);
    assert n[|DialPrefix|..] == StripNonDigits(phone);
    assert AllDigits(phone) ==> StripNonDigits(phone) == phone by {
      if AllDigits(phone) { StripKeepsDigits(phone); }
    }
    n
  }

  /** A separator anywhere in the phone parameter is not dialled. */
  lemma DialSkipsSeparator(a: string, c: char, b: string)
    requires !IsDigit(c)
    ensures DialledNumber(a + [c] + b) == DialledNumber(a + b)
  {
    StripDropsNonDigit(a, c, b);
  }

  /** The synchronous start of `handleResend`: the cooldown restarts at its
      full length before anything is sent, the error is cleared, the widget
      is created if missing, and the SMS is requested. */
  function StartResend(s: PageState): (r: ResendStep)
    ensures r.state.cooldown == ResendCooldown && r.state.error == "" && r.state.widget
    ensures r.state.(cooldown := s.cooldown, error := s.error, widget := s.widget) == s
    ensures r.calls == [SendSms(DialledNumber(s.phone))]
  {
    ResendStep(s.(cooldown := ResendCooldown, error := "", widget := true), [SendSms(DialledNumber(s.phone))])
  }

  /** How `handleResend` settles. A new handle goes to both local storage and
      memory; a failure shows a message, reopens resend at once and discards
      the widget. */
  function FinishResend(s: PageState, o: SmsOutcome): (r: PageState)
    ensures o.SmsSent? ==>
      && r.storage == s.storage[HandleKey := o.verificationId]
      && r.memoryHandle == Some(o.verificationId)
      && r.(storage := s.storage, memoryHandle := s.memoryHandle) == s
    ensures o.SmsFailed? ==>
      && r.error == MsgResendFailed && r.cooldown == 0 && !r.widget
      && r.(error := s.error, cooldown := s.cooldown, widget := s.widget) == s
  {
    match o
    case SmsSent(id) => s.(storage := s.storage[HandleKey := id], memoryHandle := Some(id))
    case SmsFailed => s.(error := MsgResendFailed, cooldown := 0, widget := false)
  }

  /** One second of the cooldown effect: it counts down by one and stops at
      zero. */
  function Tick(s: PageState): (r: PageState)
    ensures r.cooldown == if s.cooldown > 0 then s.cooldown - 1 else 0
    ensures r.(cooldown := s.cooldown) == s
  {
    if s.cooldown > 0 then s.(cooldown := s.cooldown - 1) else s
  }

  /** `n` ticks in a row. */
  function Ticks(s: PageState, n: nat): PageState
    decreases n
  {
    if n == 0 then s else Ticks(Tick(s), n - 1)
  }

  lemma {:induction false} TicksCountDown(s: PageState, n: nat)
    decreases n
    ensures Ticks(s, n).cooldown == if s.cooldown >= n then s.cooldown - n else 0
    ensures Ticks(s, n).(cooldown := s.cooldown) == s
  {
    if n > 0 {
      TicksCountDown(Tick(s), n - 1);
    }
  }

  /** What the resend area shows: nothing on the verified screen, the
      countdown while it runs, otherwise the resend button, disabled while a
      verification is in flight. */
  datatype ResendControl = NoControl | Countdown(seconds: nat) | ResendButton(enabled: bool)

  function ResendArea(s: PageState): (c: ResendControl)
    ensures c == ResendButton(true) <==> !s.isVerified && s.cooldown == 0 && !s.isVerifying
    ensures c.Countdown? <==> !s.isVerified && s.cooldown > 0
  {
    if s.isVerified then NoControl
    else if s.cooldown > 0 then Countdown(s.cooldown)
    else ResendButton(!s.isVerifying)
  }

  /** A press on the resend area: only an enabled button reacts. */
  function PressResend(s: PageState): (r: ResendStep)
    ensures s.cooldown > 0 || s.isVerifying || s.isVerified ==> r == ResendStep(s, [])
    ensures ResendArea(s) == ResendButton(true) ==> r == StartResend(s)
  {
    if ResendArea(s) == ResendButton(true) then StartResend(s) else ResendStep(s, [])
  }

  /** After a resend starts, the button stays hidden for the next 59 ticks and
      is back, enabled, after the 60th, unless a verification is running. */
  lemma ResendReopensAfterCooldown(s: PageState, k: nat)
    requires ResendArea(s) == ResendButton(true)
    ensures k < ResendCooldown ==> ResendArea(Ticks(StartResend(s).state, k)).Countdown?
    ensures ResendArea(Ticks(StartResend(s).state, ResendCooldown)) == ResendButton(true)
  {
    TicksCountDown(StartResend(s).state, k);
    TicksCountDown(StartResend(s).state, ResendCooldown);
  }

  /** A delivered handle is what the next verification uses, whatever was
      stored before. */
  lemma ResendReplacesHandle(s: PageState, id: string)
    requires id != ""
    ensures var r := FinishResend(s, SmsSent(id));
      LookupHandle(r.storage, r.memoryHandle) == Some(id)
  {
  }

  // ---------------------------------------------------------------------
  // Verified screen

  /** The code inputs take events only on the entry screen and not while a
      verification is in flight (`disabled={isVerifying}`). */
  predicate InputsEnabled(s: PageState) {
    !s.isVerified && !s.isVerifying
  }

  /** The button of the verified screen, None while the entry screen shows. */
  function VerifiedView(s: PageState): (v: Option<AppButton>)
    ensures v.Some? <==> s.isVerified
  {
    if s.isVerified then Some(ButtonFor(s.redirect)) else None
  }

  datatype CompleteRun = CompleteRun(calls: seq<Call>, navigate: Option<string>)

  /** `handleComplete`: sign out of the provider, then follow the redirect
      when there is one, whether or not the sign-out failed. */
  function Complete(s: PageState, signOutFailed: bool): (r: CompleteRun)
    ensures r.calls == [SignOut]
    ensures r.navigate.Some? <==> s.redirect.Some? && s.redirect.value != ""
    ensures r.navigate.Some? ==> r.navigate == s.redirect
  {
    CompleteRun([SignOut], if s.redirect.Some? && s.redirect.value != "" then s.redirect else None)
  }

  /** After a successful verification the page signs out and opens the
      link, and a failed sign-out does not stop it. */
  lemma VerifyThenComplete(s: PageState, codeToVerify: seq<string>, redeem: ProviderOutcome, backend: HttpOutcome, signOutFailed: bool)
    requires Attempt(LookupHandle(s.storage, s.memoryHandle), Otp.Join(codeToVerify), redeem, backend).outcome.Verified?
    ensures var o := Attempt(LookupHandle(s.storage, s.memoryHandle), Otp.Join(codeToVerify), redeem, backend).outcome;
      Complete(Verify(s, codeToVerify, redeem, backend).state, signOutFailed).navigate == Some(VerifyLink(o.uid, o.token))
  {
  }

  // ---------------------------------------------------------------------
  // The page as an event system

  datatype Event =
    | CellChanged(index: nat, value: string)
    | KeyPressed(index: nat, key: string)
    | Pasted(text: string)
    | VerifyDue
    | VerifySettled(outcome: VerifyOutcome)
    | ResendPressed
    | ResendSettled(sms: SmsOutcome)
    | CooldownTick

  /** The state after one event. Input events reach the handlers only while
      the inputs are enabled and name one of the six cells. `Pasted` is a
      paste into the first cell, the only one with a paste handler; a paste
      into another cell arrives as that cell's `CellChanged`. A due
      verification whose handle is missing fails at once; otherwise it stays
      in flight until its settlement event. */
  function Next(s: PageState, e: Event): (r: PageState)
    requires |s.code| == Otp.Length
    ensures !InputsEnabled(s) && (e.CellChanged? || e.KeyPressed? || e.Pasted?) ==> r == s
    ensures (e.CellChanged? || e.KeyPressed?) && e.index >= Otp.Length ==> r == s
    ensures e.VerifyDue? && LookupHandle(s.storage, s.memoryHandle).None? ==>
      !r.isVerifying && r.error == MsgVerifyFailed && r.code == Otp.EmptyCode
    ensures e.VerifyDue? && LookupHandle(s.storage, s.memoryHandle).Some? ==> r.isVerifying && r.error == ""
    ensures e.ResendPressed? && ResendArea(s) != ResendButton(true) ==> r == s
    ensures e.CooldownTick? ==> r.cooldown == if s.cooldown > 0 then s.cooldown - 1 else 0
  {
    match e
    case CellChanged(index, value) =>
      if InputsEnabled(s) && index < Otp.Length then InputChange(s, index, value).state else s
    case KeyPressed(index, key) =>
      if InputsEnabled(s) && index < Otp.Length then KeyDown(s, index, key) else s
    case Pasted(text) =>
      if InputsEnabled(s) then Paste(s, text).state else s
    case VerifyDue =>
      if LookupHandle(s.storage, s.memoryHandle).None? then FinishVerify(BeginVerify(s), Rejected(None))
      else BeginVerify(s)
    case VerifySettled(o) => FinishVerify(s, o)
    case ResendPressed => PressResend(s).state
    case ResendSettled(o) => FinishResend(s, o)
    case CooldownTick => Tick(s)
  }

  lemma NextPreservesInv(s: PageState, e: Event)
    requires Inv(s)
    ensures Inv(Next(s, e))
  {
    match e
    case VerifySettled(o) =>
      if o.Verified? {
        ParseVerifyLinkInverts(o.uid, o.token);
      } else {
        Otp.EmptyCodeIsBlank();
      }
    case VerifyDue =>
      Otp.EmptyCodeIsBlank();
    case Pasted(text) =>
    case _ =>
  }

  function Run(s: PageState, events: seq<Event>): PageState
    requires Inv(s)
    decreases |events|
  {
    if events == [] then s
    else
      NextPreservesInv(s, events[0]);
      Run(Next(s, events[0]), events[1..])
  }

  /** Every state reachable from a good state keeps the invariant. */
  lemma {:induction false} RunPreservesInv(s: PageState, events: seq<Event>)
    requires Inv(s)
    decreases |events|
    ensures Inv(Run(s, events))
  {
    if events != [] {
      NextPreservesInv(s, events[0]);
      RunPreservesInv(Next(s, events[0]), events[1..]);
    }
  }

  /** Whenever the verified screen shows, it shows the app link, never the
      loading button, and the link parses. */
  lemma VerifiedScreenShowsLink(s: PageState)
    requires Inv(s) && s.isVerified
    ensures VerifiedView(s) == Some(OpenApp(s.redirect.value))
    ensures ParseVerifyLink(s.redirect.value).Some?
  {
  }
}

=== FILE: verify_scenarios.dfy ===
/** Whole visits to the verification page, from the resend that delivers a
    handle to the settled verification. */
module VerifyScenarios {
  import opened Wrappers
  import opened Text
  import Otp
  import opened UriComponent
  import opened AuthApi
  import opened Links
  import opened VerifyPage

  const Phone := "09012345678"
  const Typed: seq<string> := ["1", "2", "3", "4", "5", "6"]
  const BackendOk := Response(200, Payload(Some(200), Some(SignInResponse(Some("abc"), true))))
  const BackendBusy := Response(200, Payload(Some(500), None))

  /** A page whose buffer holds 1..6 and that can find handle "H1". */
  predicate ReadyToVerify(s: PageState) {
    Otp.Join(s.code) == "123456" && LookupHandle(s.storage, s.memoryHandle) == Some("H1")
  }

  /** The buffer 1..6 joins to "123456". */
  lemma JoinTyped()
    ensures Otp.Join(Typed) == "123456"
  {
    assert forall i :: 0 <= i < |Typed| ==> |Typed[i]| == 1;
  }

  /** Pasting "12ab3456" on a page that can find "H1" makes it ready. */
  lemma PasteMakesReady(s: PageState)
    requires |s.code| == Otp.Length && LookupHandle(s.storage, s.memoryHandle) == Some("H1")
    ensures ReadyToVerify(Paste(s, "12ab3456").state)
    ensures Paste(s, "12ab3456").scheduled == Some(Typed)
  {
    Otp.PasteExample(s.code);
    JoinTyped();
    assert Otp.AllFilled(Typed) by {
      assert forall i :: 0 <= i < |Typed| ==> |Typed[i]| == 1;
    }
  }

  /** Such a page is reached by opening it, resending (which delivers "H1")
      and pasting "12ab3456". */
  function Ready(): (s: PageState)
    ensures ReadyToVerify(s) && s.code == Typed
  {
    var first := Initial(Some(Phone), map[], None, false);
    var sent := FinishResend(StartResend(first).state, SmsSent("H1"));
    ResendReplacesHandle(StartResend(first).state, "H1");
    PasteMakesReady(sent);
    Paste(sent, "12ab3456").state
  }

  /** The resend dials the calling code and every digit of the phone
      parameter, the leading zero included. */
  lemma ResendDialsDigits()
    ensures StartResend(Initial(Some(Phone), map[], None, false)).calls == [SendSms("+8109012345678")]
  {
    assert AllDigits(Phone);
    assert DialPrefix + Phone == "+8109012345678";
  }

  /** The link for user "U1" and token "abc" needs no escaping. */
  lemma PlainLink()
    ensures VerifyLink("U1", "abc") == "https://pui.onelink.me/kFYQ/pucreauth?uid=U1&token=abc"
  {
    EncodeUnescaped("U1");
    EncodeUnescaped("abc");
  }

  /** The backend accepts user "U1": one redemption with the pasted code,
      one forced token refresh, one sign-in call with only the user id set, and the link carries the
      id and token unescaped. */
  lemma SuccessfulVisit(s: PageState)
    requires ReadyToVerify(s)
    ensures var r := Verify(s, s.code, SignedIn("U1"), BackendOk);
      && r.calls == [Redeem("H1", "123456"), RefreshIdToken,
                     Backend(Post("/phone_number_signin", [("uid", "U1"), ("email", ""), ("screen_name", "")]))]
      && r.state.isVerified && !r.state.isVerifying
      && r.state.redirect == Some("https://pui.onelink.me/kFYQ/pucreauth?uid=U1&token=abc")
      && Complete(r.state, true).navigate == r.state.redirect
  {
    PlainLink();
  }

  /** The backend answers HTTP 200 with payload status 500: the user stays
      signed in with the provider, sees the generic message and types the
      code again. */
  lemma BackendRejectionVisit(s: PageState)
    requires ReadyToVerify(s) && !s.isVerified
    ensures var r := Verify(s, s.code, SignedIn("U1"), BackendBusy);
      && |r.calls| == 3 && SignOut !in r.calls
      && !r.state.isVerified && r.state.redirect == s.redirect
      && r.state.error == MsgVerifyFailed
      && r.state.code == Otp.EmptyCode && !r.state.isComplete && r.state.focus == 0
  {
  }

  /** A wrong code reported by the provider ends the attempt before the
      backend is called. */
  lemma WrongCodeVisit(s: PageState)
    requires ReadyToVerify(s) && !s.isVerified
    ensures var r := Verify(s, s.code, ProviderFailed(InvalidCodeError), BackendOk);
      && r.calls == [Redeem("H1", "123456")]
      && r.state.error == MsgInvalidCode && !r.state.isVerified
  {
  }
}

=== FILE: wrappers.dfy ===
/** Plain option and result datatypes used across the model: a value that
    may be absent (a JavaScript `null`/`undefined`) and a value-or-error
    result (a resolved or rejected promise). */
module Wrappers {

  datatype Option<+T> = None | Some(value: T)

  datatype Result<+T, +E> = Success(value: T) | Failure(error: E)
}
